=== FILE: README.md ===
# VSLiveBot conversation core, modelled in Dafny

VSLiveBot is a Bot Framework chat bot from a conference demo. Its own code decides three things, and this project models each of them:

- **Turn routing.** The repository has two bot classes, and each has an `OnTurnAsync` that routes one incoming activity.
  - Conversation updates and other non-message activities do nothing.
  - A message from a user whose name or Azure DevOps id is still missing continues the active dialog. If no dialog was active, it begins the `"UserInfo"` waterfall.
  - A message from a known user goes different ways in the two variants:
    - `VSLiveBot` continues the active dialog. Only when none was active does it consult LUIS. It then begins `"CreateNew"` for the `Create_New` intent, and it answers "I am unsure" when LUIS returns no result or its top intent is `"None"`. A recognized intent whose entity path cannot be walked throws.
    - `VSLiveBotBot`, the class the web host registers, only acknowledges the message.
  - Every message turn that completes writes back the conversation data it read and saves the conversation state. A turn that throws skips both.
- **The two waterfall dialogs.**
  - `UserInfoDialog` fills in the user profile: the name, then the Azure DevOps id.
  - `CreateNewDialog` fills in a work item: its type, its description, and whether it is assigned to the user.
  - The confirm steps read a state record, update it in place, write it back, save and send messages. The prompt steps for the name, the id and the assign-to-self choice only prompt. The description prompt step first records the item type, writes the record back and saves, then prompts.
  - Each step hands one action back to the framework: prompt, continue, or end.
- **`GetAdoItemName`.** This is a case-insensitive lookup of the six Azure DevOps work-item types. Nothing calls it.

## How the model is built

- **Modules.** There is one module per source file:
  - `BotState` holds the records, the state accessors and the effect log;
  - `Dialogs` holds the vocabulary both dialogs and both bots share;
  - `UserInfo` and `CreateNew` hold the two waterfalls;
  - `LuisBot` models `src/VSLiveBot.cs`;
  - `ProfileBot` models `src/VSLiveBot/VSLiveBotBot.cs`.
  - In addition, `Conversations` replays whole dialogs. It is a separate stand-in for the framework's waterfall runner, which is not part of this model.
- **Effects.** Everything a turn or a step does to the outside world is recorded in order, as an `Effect` in a log:
  - messages sent;
  - `ContinueDialogAsync` and `BeginDialogAsync`;
  - the LUIS call;
  - state properties set;
  - state stores saved.

  `Sent` and `Begun` extract the messages and the dialogs begun from a log.
- **State accessors.** `StateAccessors` is a class. Its fields are updated in place:
  - the user profile;
  - the work-item record;
  - the effect log.

  The dialog step methods `modify` it and state their whole new state.
- **Inputs from the framework.** The framework's contributions become inputs:
  - the activity type;
  - the conversation data read at the start of the turn (the user profile is the one stored behind the bot's accessors);
  - the status `ContinueDialogAsync` reports;
  - what LUIS recognized;
  - the prompt replies.
- **Turn routing is proved against a specification function.** Each bot's `OnTurn` is an imperative method over those inputs. It builds the turn's effect log and possible exception step by step. Its postcondition ties the result to a specification function `RoutedTurn`, and the routing properties are lemmas about `RoutedTurn`.
- **Message texts.** The texts the steps and the bots build (`Show`, `ShowBool`, `ThanksName`, `AskDescription`, `Summary`, `GotWhatWeNeed`) and the exception an unwalkable entity path raises (`PathFault`) are plain vocabulary functions. What they produce is stated where it is used: in the step methods' postconditions and in the turn lemmas.
- **Waterfall steps.** `Steps()` lists the names of each waterfall's steps, in order. These names are labels only; nothing ties them to the step methods. The `Conversations` replays call the step methods in that order.
- **Throwing constructors.** A C# constructor that throws becomes a static `Create` method returning a `Result`.
- **Quirks modelled as written.**
  - `UserProfile` and `UserProfileAccessor` are both created on the property name `"UserProfile"` (src/VSLiveBot/Startup.cs:67,69). They are therefore one profile field.
  - The host never assigns the `CreateNewData` accessor (src/VSLiveBot/Startup.cs:64-70). `StateAccessors.createNewDataAssigned` records that. Without the accessor, every create-new step that touches the work item throws `NullReferenceException` before doing anything.
  - The LUIS variant passes the raw entity text to `"CreateNew"`. It does not pass the canonical name `GetAdoItemName` would give.
  - `BeginDialogAsync` runs the first step of the dialog it begins within the same call. For `"CreateNew"` that step reads the `CreateNewData` accessor, so without it the LUIS turn throws `NullReferenceException` after beginning the dialog and before the write-back (src/VSLiveBot.cs:105-120, src/Dialogs/CreateNewDialog.cs:35). The routing functions take `createNewDataAssigned` as an input for this reason.
- **Pass-through chaining.** Chaining one step into the next is the framework's behaviour (`ContinueDialogAsync` inside a step). The model shows it only through the `Continue` action, and in the `Conversations` replays.

## Model

| member | source | states |
|---|---|---|
| BotState.StateAccessors.FromStartup | src/VSLiveBot/Startup.cs:64-70 | The accessors the host builds have no CreateNewData accessor. They start from the getters' default records, with nothing done yet. |
| BotState.StateAccessors.SetUserProfile | src/VSLiveBot/Dialogs/UserInfoDialog.cs:47 | Setting the profile replaces it, leaves the work item alone and logs the write. |
| BotState.StateAccessors.SetCreateNewData | src/Dialogs/CreateNewDialog.cs:37 | Setting the work item needs the accessor. It replaces the work item, leaves the profile alone and logs the write. |
| BotState.StateAccessors.SaveUserState | src/VSLiveBot/Dialogs/UserInfoDialog.cs:48 | Saving changes no record and logs the save. |
| BotState.StateAccessors.Send | src/VSLiveBot/Dialogs/UserInfoDialog.cs:51 | Sending changes no record and logs the message. |
| BotState.SentAppend | src/VSLiveBot/Dialogs/UserInfoDialog.cs:76-78 | Messages compose: the messages of two logs run one after the other are the first log's messages followed by the second's. |
| Dialogs.WriteBackAddsNothing | src/VSLiveBot.cs:119-120 | The closing write-back of the conversation data and the save send no message and begin no dialog, whatever came before them. |
| UserInfo.UserInfoDialog.Create | src/VSLiveBot/Dialogs/UserInfoDialog.cs:16-19 | Null accessors throw ArgumentNullException("accessors"). Otherwise the dialog keeps the accessors it was given. |
| UserInfo.UserInfoDialog.GetNameStep | src/VSLiveBot/Dialogs/UserInfoDialog.cs:32-37 | Prompts "name" with the fixed question and no choices. It touches no state. |
| UserInfo.UserInfoDialog.NameConfirmStep | src/VSLiveBot/Dialogs/UserInfoDialog.cs:39-54 | Name := reply; the id and the work item are unchanged. The order is set, save, then "Thanks {reply}.", and the step continues. |
| UserInfo.UserInfoDialog.GetAdoIdStep | src/VSLiveBot/Dialogs/UserInfoDialog.cs:56-62 | Prompts "adoId" with "What is your Azure Dev Ops Id?" and no choices. It touches no state. |
| UserInfo.UserInfoDialog.AdoIdConfirmStep | src/VSLiveBot/Dialogs/UserInfoDialog.cs:65-81 | AdoId := reply; the name and the work item are unchanged. The order is set, save, the confirmation naming the stored name and the reply, then "What do you want to do?". It ends with the updated profile. |
| CreateNew.CreateNewDialog.Create | src/Dialogs/CreateNewDialog.cs:18-21 | Null accessors throw ArgumentNullException("accessors"). Otherwise the dialog keeps the accessors. |
| CreateNew.CreateNewDialog.GetDescriptionStep | src/Dialogs/CreateNewDialog.cs:33-41 | Without the CreateNewData accessor it throws NullReferenceException and changes nothing. Otherwise: ItemType := options, with the description and the choice unchanged; the profile is unchanged; set, then save; it prompts "description" with text naming the options. |
| CreateNew.CreateNewDialog.DescriptionConfirmStep | src/Dialogs/CreateNewDialog.cs:43-56 | Without the accessor it throws and changes nothing. Otherwise: Description := reply, with the type and the choice unchanged; the profile is unchanged; set, save, then exactly one message echoing the name and the description; it continues. |
| CreateNew.CreateNewDialog.GetAssignedToStep | src/Dialogs/CreateNewDialog.cs:58-66 | Prompts "assignSelf" with the fixed question and the choices exactly ["Yes", "No"]. It touches no state. |
| CreateNew.CreateNewDialog.AssignedToStep | src/Dialogs/CreateNewDialog.cs:69-85 | Without the accessor it throws and changes nothing. Otherwise: AssignToSelf := reply; the profile is unchanged; set, save, the summary, then "What do you want to do?"; it ends with the user profile, not the work item. |
| LuisBot.ToUpper | src/VSLiveBot.cs:129 | Upper-casing keeps the length and leaves no lower-case ASCII letter. Every other character stays in place, and each lower-case letter becomes the capital of the same letter. |
| LuisBot.NamesUpperToKeys | src/VSLiveBot.cs:131-160 | Each of the six names upper-cases to the key it is listed under. |
| LuisBot.GetAdoItemName | src/VSLiveBot.cs:126-163 | The result is "" or one of the six names. It is a name exactly when the input upper-cases to one of the six keys, and then it upper-cases to the same key as the input. |
| LuisBot.ItemTypeLookup | src/VSLiveBot.cs:129-160 | Any spelling, in any case, of the i-th key gives the i-th name. |
| LuisBot.GetAdoItemNameIgnoresCase | src/VSLiveBot.cs:129 | An entity name and its upper-cased form map to the same result. |
| LuisBot.GetAdoItemNameIdempotent | src/VSLiveBot.cs:126-163 | Applying the lookup to its own output returns that output. |
| LuisBot.RegisteredIds | src/VSLiveBot.cs:34-43 | The registered ids are UserInfo, name, adoId, CreateNew, description and assignSelf, in that order. |
| LuisBot.DispatchShape | src/VSLiveBot.cs:80-117 | Every dispatch starts with ContinueDialog and never writes back. LUIS is called exactly when the identity is known and no dialog was active. |
| LuisBot.DispatchSent | src/VSLiveBot.cs:80-117 | The dispatch sends the "unsure" message when the identity is known, no dialog was active and nothing was recognized, and sends nothing otherwise. |
| LuisBot.DispatchBegun | src/VSLiveBot.cs:80-117 | The dispatch begins "UserInfo" when the identity is incomplete and no dialog was active, "CreateNew" with the entity text for a walkable "Create_New" result, and nothing otherwise. |
| LuisBot.NonMessageIsNoOp | src/VSLiveBot.cs:64-71 | A conversation update, or any non-message activity, has an empty log and no exception. |
| LuisBot.IdentityComesFirst | src/VSLiveBot.cs:80-90 | With the name or the id null or empty, the active dialog is continued and LUIS is not called. No message is sent. "UserInfo" with null options is begun exactly when the status was Empty. |
| LuisBot.ActiveDialogOnly | src/VSLiveBot.cs:91-98 | With the identity known and a non-Empty status, the turn continues the dialog with no LUIS call, no dialog begun and no message. |
| LuisBot.RecognizerOnlyWhenIdle | src/VSLiveBot.cs:93-99 | LUIS is called if and only if the activity is a message, the identity is known and the status is Empty. |
| LuisBot.UnsureWithoutIntent | src/VSLiveBot.cs:100-114 | With no recognizer result, or the top intent "None", exactly one message "{Name}, I am unsure what you want to do." is sent and no dialog is begun. |
| LuisBot.CreateNewGetsRawEntity | src/VSLiveBot.cs:99-120 | "Create_New" begins exactly "CreateNew", with the entity text as its options, and sends nothing. With the CreateNewData accessor the turn completes and saves the conversation state; without it the dialog's first step throws NullReferenceException and the state is not saved. |
| LuisBot.EntityNotNormalised | src/VSLiveBot.cs:103-107 | For the entity "bug", "CreateNew" receives "bug", although GetAdoItemName("bug") is "Bug". |
| LuisBot.OtherIntentIgnored | src/VSLiveBot.cs:101-109 | A recognized intent other than "None" and "Create_New" begins no dialog and sends no message. |
| LuisBot.MissingEntityThrows | src/VSLiveBot.cs:103 | A recognized intent whose entity path cannot be walked throws NullReferenceException (a null on the path) or InvalidOperationException (a plain value on the path), begins no dialog, and neither sets nor saves the conversation data. |
| LuisBot.MessageTurnShape | src/VSLiveBot.cs:77-120 | A message turn that throws does not save the conversation state. A message turn that completes ends with the conversation data it read, set back unchanged, and then the save. It sends at most one message and begins at most one dialog, and that dialog is a registered one. |
| LuisBot.VSLiveBot.Create | src/VSLiveBot.cs:25-50 | Null accessors, then null services, throw ArgumentNullException. Services without the "ModernAppsLiveLanguage" key throw ArgumentException. Construction succeeds exactly otherwise, with the six dialogs registered and sharing the accessors. |
| LuisBot.VSLiveBot.OnTurn | src/VSLiveBot.cs:62-124 | The imperative turn produces exactly the log and the exception of RoutedTurn, for the profile stored behind the bot's accessors and given whether they hold a CreateNewData accessor; the lemmas above characterise RoutedTurn. |
| ProfileBot.RegisteredIds | src/VSLiveBot/VSLiveBotBot.cs:41-43 | The registered ids are exactly UserInfo, name and adoId, in that order. |
| ProfileBot.DispatchLog | src/VSLiveBot/VSLiveBotBot.cs:74-88 | The dialog is continued if and only if the identity is incomplete, and the recognizer is never called. The closed form of the message sent and of the dialog begun. |
| ProfileBot.NonMessageIsNoOp | src/VSLiveBot/VSLiveBotBot.cs:58-65 | A conversation update, or any non-message activity, has an empty log and no exception. |
| ProfileBot.IdentityComesFirst | src/VSLiveBot/VSLiveBotBot.cs:74-84 | With the identity incomplete the dialog is continued and no message is sent. "UserInfo" with null options is begun exactly when the status was Empty; otherwise nothing is begun. |
| ProfileBot.CompleteProfileAcknowledged | src/VSLiveBot/VSLiveBotBot.cs:85-88 | With the identity complete, exactly one message "{Name}, We got what we need" is sent, and no dialog is continued or begun. |
| ProfileBot.MessageTurnShape | src/VSLiveBot/VSLiveBotBot.cs:69-91 | Every message turn completes without an exception and never calls a recognizer. It ends with the conversation data it read, set back unchanged, and then the save. It has at most one message and at most one dialog begun, a registered one. |
| ProfileBot.VSLiveBotBot.Create | src/VSLiveBot/VSLiveBotBot.cs:32-44 | Null accessors throw ArgumentNullException("accessors"), and only they do. Otherwise exactly UserInfo, name and adoId are registered, and the waterfall shares the accessors. |
| ProfileBot.VSLiveBotBot.FromStartup | src/VSLiveBot/Startup.cs:58-73 | The bot the host registers is built on fresh accessors without the CreateNewData accessor, with nothing done yet, and registers exactly UserInfo, name and adoId; "CreateNew" is not among them. |
| ProfileBot.VSLiveBotBot.OnTurn | src/VSLiveBot/VSLiveBotBot.cs:56-95 | The imperative turn produces exactly the log of RoutedTurn for the profile stored behind the bot's accessors; the lemmas above characterise RoutedTurn. |
| Conversations.CollectUserInfo | src/VSLiveBot/Dialogs/UserInfoDialog.cs:22-81 | The name is written by step 2 alone and the id by step 4 alone, so the replies n then a leave the profile exactly (n, a), with the work item untouched. The actions are prompt, continue, prompt, end(profile). The messages are the two acknowledgements, then "What do you want to do?". |
| Conversations.CreateWorkItem | src/Dialogs/CreateNewDialog.cs:23-85 | Without the accessor the first step throws and nothing changes. Otherwise the work item ends exactly (options, description, choice), with the profile only read. The actions are prompt, continue, prompt with Yes/No, end(profile). The messages are the echo, the summary, then "What do you want to do?". |
| Conversations.CreateWorkItemAsHosted | src/VSLiveBot/Startup.cs:64-70 | With the accessors the host builds, the create-new waterfall always throws NullReferenceException at its first step, and nothing is logged. |
| Conversations.CreateNewTurnAsHosted | src/VSLiveBot.cs:99-120 | The LUIS bot built on the host's accessors, once its profile waterfall has stored two non-empty replies, given "Create_New", sends nothing, begins "CreateNew" with the raw entity and then throws NullReferenceException, the same exception the dialog's first step throws; the conversation data is neither written back nor saved. |
| Conversations.CollectUserInfoAsHosted | src/VSLiveBot/Startup.cs:64-70 | With the host's accessors, the replies n and a leave the profile exactly (n, a). That profile is a complete identity exactly when neither reply is empty. The messages are the two acknowledgements, then "What do you want to do?". |

## Left out

- `src/CognitiveServicesAndAR/MalModernUi.iOS/Renderers/ArViewRenderer.cs` is an iOS ARKit page renderer: UI callbacks, float vectors and gestures. It has nothing to verify at this level.
- Startup's hosting, dependency injection, `.bot` file loading, credentials, and the `OnTurnError` apology. These are wiring and I/O. Only the accessors it builds (`StateAccessors.FromStartup`) and the bot it registers (`VSLiveBotBot.FromStartup`) are kept.
- Bot Framework internals are inputs or effect-log entries, not behaviour:
  - `DialogSet` and `WaterfallDialog` stepping, and the dialog-state stack;
  - how `TextPrompt` and `ConfirmPrompt` recognize a reply;
  - `DialogSet`'s own null check on the dialog-state accessor;
  - `GetAsync` defaults on a missing property;
  - what the steps run inside `ContinueDialogAsync` and `BeginDialogAsync` log of their own. Of the exceptions those steps can raise, only the create-new first step's `NullReferenceException` is carried into the LUIS turn; the profile steps never throw, and the later create-new steps are never reached because the dialog state saved at src/VSLiveBot.cs:120 is skipped when the first step throws.
- The framework's waterfall runner is replaced, in `Conversations`, by straight-line replays of the path on which every prompt is answered. Re-prompts, cancellation and interleaving with other turns are not modelled.
- The LUIS call is an input. It is the top intent, absent only when the recognizer result itself is null (`GetTopScoringIntent` gives the name "" when there is no intent), and the outcome of walking the `JObject` entity path: the token's text, a null on the path, or a plain JSON value on the path. The JSON shapes that lead to each outcome are not modelled.
- async/await, `CancellationToken`, `MemoryStorage` and what `SaveChangesAsync` persists are left out. A save is an entry in the effect log.
- The Azure DevOps work-item creation is only a comment in the source, so nothing is created.
- LuisBot.ToUpper: upper-cases ASCII letters as the invariant culture does. All culture-specific mappings are left out, both for non-ASCII letters and for ASCII ones (for example, the Turkish culture upper-cases "i" to "İ").
- LuisBot.GetAdoItemName: does not model a null argument, which would throw in `ToUpper`. Nothing calls the method.
- The source files of the `UserProfile` and `CreateNewData` classes are not part of this model. Their fields (Name, AdoId; ItemType, Description, AssignToSelf) and their defaults are taken from how the dialogs use them.
- `ConversationData` (src/Bot/StateInformation/ConversationData.cs:8-15) is carried as an opaque record. The turns only read it and write it back.
- LuisBot.VSLiveBot.Create: does not model `BotServices` with a null `LuisServices` dictionary, which would throw `NullReferenceException` at the key check.
- UserInfo.UserInfoDialog.NameConfirmStep: prompt replies are non-null strings (a `TextPrompt` never yields null), so a null reply is not modelled.
- UserInfo.UserInfoDialog.AdoIdConfirmStep: for the same reason, a null reply is not modelled.
- CreateNew.CreateNewDialog.DescriptionConfirmStep: for the same reason, a null reply to the `(string)` cast is not modelled.
- CreateNew.CreateNewDialog.AssignedToStep: the reply is a `bool` (a `ConfirmPrompt` always yields one), so the `NullReferenceException` that the `(bool)` unboxing of a null result would raise is not modelled.
- The `UserProfile` and `UserProfileAccessor` accessors are both assigned by Startup, so the steps' use of them never meets a null accessor. Only the unassigned `CreateNewData` accessor is modelled as missing.

=== FILE: conversations.dfy ===
/**
 * Whole conversations through the two waterfalls. The framework's runner is not
 * part of this model; these replays stand in for it on the path where every
 * prompt is answered: the four steps are called one after the other, the
 * prompt's reply is handed to the step that follows it, a `Continue` runs the
 * next step at once, and an `End` finishes the dialog.
 */
module Conversations {
  import opened Wrappers
  import opened BotState
  import opened Dialogs
  import opened UserInfo
  import opened CreateNew
  import LuisBot

  /** The messages of a log extended by three effects of which only the last sends. */
  lemma SentAfterSetSaveSend(log: seq<Effect>, write: Effect, text: string)
    requires !write.Send?
    ensures Sent(log + [write, SaveUserState, Send(text)]) == Sent(log) + [text]
  {
    AppendOne(log, write);
    AppendOne(log + [write], SaveUserState);
    AppendOne(log + [write] + [SaveUserState], Send(text));
    assert log + [write, SaveUserState, Send(text)] == log + [write] + [SaveUserState] + [Send(text)];
  }

  /** The messages of a log extended by a set, a save and two messages. */
  lemma SentAfterSetSaveSendSend(log: seq<Effect>, write: Effect, text: string, text2: string)
    requires !write.Send?
    ensures Sent(log + [write, SaveUserState, Send(text), Send(text2)]) == Sent(log) + [text, text2]
  {
    SentAfterSetSaveSend(log, write, text);
    AppendOne(log + [write, SaveUserState, Send(text)], Send(text2));
    assert log + [write, SaveUserState, Send(text), Send(text2)] == log + [write, SaveUserState, Send(text)] + [Send(text2)];
  }

  /**
   * The "UserInfo" waterfall answered with `name` and then `adoId`. The name is
   * written by the second step alone and the id by the fourth alone, so the
   * profile ends as exactly (name, adoId), while the work item is not touched. The user sees the two acknowledgements and
   * then "What do you want to do?", in that order, and the dialog's result is the
   * finished profile.
   */
  method CollectUserInfo(dialog: UserInfoDialog, name: string, adoId: string)
    returns (actions: seq<StepAction>, afterName: UserProfile)
    modifies dialog.accessors
    ensures afterName == old(dialog.accessors.userProfile).(name := Some(name))
    ensures dialog.accessors.userProfile == UserProfile(Some(name), Some(adoId))
    ensures dialog.accessors.createNewData == old(dialog.accessors.createNewData)
    ensures actions == [Prompt(NamePromptId, AskName, []), Continue, Prompt(AdoIdPromptId, AskAdoId, []),
                        End(UserProfile(Some(name), Some(adoId)))]
    ensures Sent(dialog.accessors.effects) == Sent(old(dialog.accessors.effects)) +
      [ThanksName(name), "Thanks " + name + ", I have your Azure Dev Ops Id as " + adoId + ".", WhatNext]
  {
    var a := dialog.accessors;
    var first := UserInfoDialog.GetNameStep();

    var log0 := a.effects;
    var second := dialog.NameConfirmStep(name);
    afterName := a.userProfile;
    SentAfterSetSaveSend(log0, SetUserProfile(afterName), ThanksName(name));

    var third := dialog.GetAdoIdStep();

    var log1 := a.effects;
    var fourth := dialog.AdoIdConfirmStep(adoId);
    SentAfterSetSaveSendSend(log1, SetUserProfile(a.userProfile),
      "Thanks " + name + ", I have your Azure Dev Ops Id as " + adoId + ".", WhatNext);

    actions := [first, second, third, fourth];
  }

  /**
   * The "CreateNew" waterfall begun with `options` and answered with `description`
   * and then `assign`. Without the CreateNewData accessor the first step throws
   * and nothing at all has changed. With it, the work item ends as exactly
   * (options, description, assign), the profile is only read, and the user sees
   * the echoed description, the summary and "What do you want to do?", in that order.
   */
  method CreateWorkItem(dialog: CreateNewDialog, options: Option<string>, description: string, assign: bool)
    returns (outcome: Result<seq<StepAction>, Exception>)
    modifies dialog.accessors
    ensures !dialog.accessors.createNewDataAssigned ==>
      && outcome == Failure(NullReference) && unchanged(dialog.accessors)
    ensures dialog.accessors.createNewDataAssigned ==>
      && dialog.accessors.createNewData == CreateNewData(options, Some(description), assign)
      && dialog.accessors.userProfile == old(dialog.accessors.userProfile)
      && outcome == Success([Prompt(DescriptionPromptId, AskDescription(options), []), Continue,
                             Prompt(AssignSelfPromptId, AskAssignSelf, YesNo),
                             End(old(dialog.accessors.userProfile))])
      && Sent(dialog.accessors.effects) == Sent(old(dialog.accessors.effects)) +
           [ "Thanks " + Show(dialog.accessors.userProfile.name) + ", the description will be '" + description + "'.",
             Summary(CreateNewData(options, Some(description), assign)), WhatNext ]
  {
    var a := dialog.accessors;
    var log0 := a.effects;
    var first := dialog.GetDescriptionStep(options);
    if first.Failure? {
      return Failure(first.error);
    }
    AppendOne(log0, SetCreateNewData(a.createNewData));
    AppendOne(log0 + [SetCreateNewData(a.createNewData)], SaveUserState);
    assert log0 + [SetCreateNewData(a.createNewData), SaveUserState]
        == log0 + [SetCreateNewData(a.createNewData)] + [SaveUserState];

    var log1 := a.effects;
    var second := dialog.DescriptionConfirmStep(description);
    SentAfterSetSaveSend(log1, SetCreateNewData(a.createNewData),
      "Thanks " + Show(a.userProfile.name) + ", the description will be '" + description + "'.");

    var third := dialog.GetAssignedToStep();

    var log2 := a.effects;
    var fourth := dialog.AssignedToStep(assign);
    SentAfterSetSaveSendSend(log2, SetCreateNewData(a.createNewData), Summary(a.createNewData), WhatNext);

    outcome := Success([first.value, second.value, third, fourth.value]);
  }

  /**
   * With the accessors the web host builds, the create-new waterfall can never
   * get past its first step: it throws a NullReferenceException before writing,
   * saving or sending anything, whatever the item type, description and choice.
   */
  method CreateWorkItemAsHosted(options: Option<string>, description: string, assign: bool)
    returns (outcome: Result<seq<StepAction>, Exception>, effects: seq<Effect>)
    ensures outcome == Failure(NullReference)
    ensures effects == []
  {
    var accessors := StateAccessors.FromStartup();
    var created := CreateNewDialog.Create(accessors);
    var dialog := created.value;
    outcome := CreateWorkItem(dialog, options, description, assign);
    effects := accessors.effects;
  }

  /**
   * With the accessors the web host builds, the profile waterfall works: starting
   * from the empty profile, the replies `name` and `adoId` leave the profile
   * holding exactly those two replies, which is a complete identity exactly when
   * neither reply is empty.
   */
  method CollectUserInfoAsHosted(name: string, adoId: string)
    returns (profile: UserProfile, sent: seq<string>)
    ensures profile == UserProfile(Some(name), Some(adoId))
    ensures HasIdentity(profile) <==> name != "" && adoId != ""
    ensures sent == [ThanksName(name), "Thanks " + name + ", I have your Azure Dev Ops Id as " + adoId + ".", WhatNext]
  {
    var accessors := StateAccessors.FromStartup();
    var created := UserInfoDialog.Create(accessors);
    var dialog := created.value;
    var _, _ := CollectUserInfo(dialog, name, adoId);
    profile := accessors.userProfile;
    sent := Sent(accessors.effects);
  }

  /**
   * The LUIS bot built on the accessors Startup creates, once the profile
   * waterfall has stored a complete identity, given a "Create_New" intent: the
   * turn begins "CreateNew" with the raw entity, and the waterfall's first step,
   * which the bot's own create-new dialog runs, throws NullReferenceException; the
   * turn therefore ends with that exception and neither writes back nor saves the
   * conversation state.
   */
  method CreateNewTurnAsHosted(name: string, adoId: string, conversationData: ConversationData, entity: string)
    returns (t: Turn, firstStep: Result<StepAction, Exception>)
    requires name != "" && adoId != ""
    ensures firstStep == Failure(NullReference)
    ensures t.fault == Some(NullReference)
    ensures Sent(t.effects) == [] && Begun(t.effects) == [BeginDialog(CreateNewId, Some(entity))]
    ensures SetConversationData(conversationData) !in t.effects && SaveConversationState !in t.effects
  {
    var accessors := StateAccessors.FromStartup();
    var created := LuisBot.VSLiveBot.Create(accessors, Some(LuisBot.BotServices({LuisBot.LuisKey})));
    var bot := created.value;
    var _, _ := CollectUserInfo(bot.userInfo, name, adoId);
    var recognition := LuisBot.Recognition(Some("Create_New"), LuisBot.Entity(entity));
    t := bot.OnTurn(Message, conversationData, Empty, recognition);
    LuisBot.CreateNewGetsRawEntity(accessors.userProfile, conversationData, entity, false);
    LuisBot.MessageTurnShape(accessors.userProfile, conversationData, Empty, recognition, false);
    firstStep := bot.createNew.GetDescriptionStep(Some(entity));
  }
}

=== FILE: create_new_dialog.dfy ===
/**
 * CreateNewDialog: the four-step waterfall that assembles a work item (type,
 * description, assign-to-self) in CreateNewData. It reads the user profile but
 * never writes it. Every step that touches CreateNewData goes through the
 * `CreateNewData` accessor, so without that accessor those steps throw before
 * doing anything.
 */
module CreateNew {
  import opened Wrappers
  import opened BotState
  import opened Dialogs

  const AskAssignSelf := "Do you want to assign this to yourself?"
  /** The choices of the assign-to-self prompt, in the order they are added. */
  const YesNo := ["Yes", "No"]

  /** The prompt for the description, naming the item type passed as the dialog's options. */
  function AskDescription(options: Option<string>): string {
    "What should be the description for this " + Show(options) + "?"
  }

  /** The summary sent before the dialog ends. */
  function Summary(d: CreateNewData): string {
    "Creating a new " + Show(d.itemType) + " with a description of " + Show(d.description)
      + " and assigned to self as " + ShowBool(d.assignToSelf)
  }

  class CreateNewDialog {
    const accessors: StateAccessors

    constructor (accessors: StateAccessors)
      ensures this.accessors == accessors
    {
      this.accessors := accessors;
    }

    /** The C# constructor: a null accessors object is refused with ArgumentNullException. */
    static method Create(accessors: StateAccessors?) returns (r: Result<CreateNewDialog, Exception>)
      ensures accessors == null ==> r == Failure(ArgumentNull("accessors"))
      ensures accessors != null ==> r.Success? && fresh(r.value) && r.value.accessors == accessors
    {
      if accessors == null {
        r := Failure(ArgumentNull("accessors"));
      } else {
        var d := new CreateNewDialog(accessors);
        r := Success(d);
      }
    }

    /** The waterfall's steps, in the order the framework runs them. */
    static function Steps(): seq<StepName> {
      [GetDescription, DescriptionConfirm, GetAssignedTo, AssignedTo]
    }

    /**
     * Step 1: the dialog's options become the item type (description and
     * assign-to-self untouched), the record is set and saved, and the user is
     * asked for a description that names the options.
     */
    method GetDescriptionStep(options: Option<string>) returns (r: Result<StepAction, Exception>)
      modifies accessors
      ensures !accessors.createNewDataAssigned ==> r == Failure(NullReference) && unchanged(accessors)
      ensures accessors.createNewDataAssigned ==>
        && accessors.createNewData == old(accessors.createNewData).(itemType := options)
        && accessors.userProfile == old(accessors.userProfile)
        && accessors.effects == old(accessors.effects) + [SetCreateNewData(accessors.createNewData), SaveUserState]
        && r == Success(Prompt(DescriptionPromptId, AskDescription(options), []))
    {
      if !accessors.createNewDataAssigned {
        return Failure(NullReference);
      }
      var createNewData := accessors.createNewData;
      createNewData := createNewData.(itemType := options);
      accessors.SetCreateNewData(createNewData);
      accessors.SaveUserState();
      r := Success(Prompt(DescriptionPromptId, AskDescription(options), []));
    }

    /**
     * Step 2: the reply becomes the description (item type and assign-to-self
     * untouched); after set and save exactly one message echoes it back, and the
     * waterfall goes straight on to step 3.
     */
    method DescriptionConfirmStep(result: string) returns (r: Result<StepAction, Exception>)
      modifies accessors
      ensures !accessors.createNewDataAssigned ==> r == Failure(NullReference) && unchanged(accessors)
      ensures accessors.createNewDataAssigned ==>
        && accessors.createNewData == old(accessors.createNewData).(description := Some(result))
        && accessors.userProfile == old(accessors.userProfile)
        && accessors.effects == old(accessors.effects) +
             [ SetCreateNewData(accessors.createNewData), SaveUserState,
               Send("Thanks " + Show(accessors.userProfile.name) + ", the description will be '" + result + "'.") ]
        && r == Success(Continue)
    {
      var userProfile := accessors.userProfile;
      if !accessors.createNewDataAssigned {
        return Failure(NullReference);
      }
      var createNewData := accessors.createNewData;
      createNewData := createNewData.(description := Some(result));
      accessors.SetCreateNewData(createNewData);
      accessors.SaveUserState();
      accessors.Send("Thanks " + Show(userProfile.name) + ", the description will be '" + Show(createNewData.description) + "'.");
      r := Success(Continue);
    }

    /** Step 3: a yes/no prompt with the choices "Yes" then "No"; nothing is written. */
    method GetAssignedToStep() returns (action: StepAction)
      ensures action.Prompt? && action.promptId == AssignSelfPromptId
      ensures action.text == AskAssignSelf && action.choices == YesNo
    {
      var _ := accessors.userProfile;
      var choices := [];
      choices := choices + ["Yes"];
      choices := choices + ["No"];
      action := Prompt(AssignSelfPromptId, AskAssignSelf, choices);
    }

    /**
     * Step 4: the confirmed choice becomes assign-to-self. After set and save the
     * summary and then "What do you want to do?" are sent, and the dialog ends with
     * the user profile (not the work item) as its result. No work item is created.
     */
    method AssignedToStep(result: bool) returns (r: Result<StepAction, Exception>)
      modifies accessors
      ensures !accessors.createNewDataAssigned ==> r == Failure(NullReference) && unchanged(accessors)
      ensures accessors.createNewDataAssigned ==>
        && accessors.createNewData == old(accessors.createNewData).(assignToSelf := result)
        && accessors.userProfile == old(accessors.userProfile)
        && accessors.effects == old(accessors.effects) +
             [SetCreateNewData(accessors.createNewData), SaveUserState, Send(Summary(accessors.createNewData)), Send(WhatNext)]
        && r == Success(End(accessors.userProfile))
    {
      var userProfile := accessors.userProfile;
      if !accessors.createNewDataAssigned {
        return Failure(NullReference);
      }
      var createNewData := accessors.createNewData;
      createNewData := createNewData.(assignToSelf := result);
      accessors.SetCreateNewData(createNewData);
      accessors.SaveUserState();
      accessors.Send(Summary(createNewData));
      accessors.Send(WhatNext);
      r := Success(End(userProfile));
    }
  }
}

=== FILE: dialogs.dfy ===
/**
 * The vocabulary shared by the two waterfall dialogs and the bots that register
 * them: what a waterfall step hands back to the framework, the dialogs a
 * DialogSet holds, and the status ContinueDialogAsync reports.
 */
module Dialogs {
  import opened Wrappers
  import opened BotState

  /** Dialog ids, as the bots register them and the steps prompt with them. */
  const UserInfoId := "UserInfo"
  const CreateNewId := "CreateNew"
  const NamePromptId := "name"
  const AdoIdPromptId := "adoId"
  const DescriptionPromptId := "description"
  const AssignSelfPromptId := "assignSelf"

  /** The message both dialogs send when they finish. */
  const WhatNext := "What do you want to do?"

  /**
   * What a waterfall step returns: `PromptAsync(id, text[, choices])`, which waits
   * for the user's reply; `ContinueDialogAsync`, which runs the next step at once;
   * or `EndDialogAsync(value)`, which finishes the waterfall with a result.
   */
  datatype StepAction =
    | Prompt(promptId: string, text: string, choices: seq<string>)
    | Continue
    | End(result: UserProfile)

  /** The step methods of the two waterfalls, by name. */
  datatype StepName =
    | GetName | NameConfirm | GetAdoId | AdoIdConfirm
    | GetDescription | DescriptionConfirm | GetAssignedTo | AssignedTo

  /** A dialog added to a DialogSet. */
  datatype Dialog =
    | WaterfallDialog(id: string, steps: seq<StepName>)
    | TextPrompt(id: string)
    | ConfirmPrompt(id: string)

  /** `DialogTurnResult.Status` as ContinueDialogAsync reports it. */
  datatype DialogTurnStatus = Empty | Waiting | Complete | Cancelled

  /** `Activity.Type`: the two the bots switch on, and every other kind. */
  datatype ActivityType = Message | ConversationUpdate | OtherActivity(name: string)

  /**
   * What one call of a bot's OnTurnAsync did: its own effects in order (the
   * steps a ContinueDialog or BeginDialog runs inside the framework log their own
   * effects), and the exception it ended with, if any.
   */
  datatype Turn = Turn(effects: seq<Effect>, fault: Option<Exception>)

  /**
   * How both bots end a message turn that completes: the conversation data they
   * read is set back unchanged, then the conversation state is saved.
   */
  function WriteBack(conversationData: ConversationData): seq<Effect> {
    [SetConversationData(conversationData), SaveConversationState]
  }

  /** The write-back neither sends a message nor begins a dialog, whatever precedes it. */
  lemma WriteBackAddsNothing(effects: seq<Effect>, conversationData: ConversationData)
    ensures Sent(effects + WriteBack(conversationData)) == Sent(effects)
    ensures Begun(effects + WriteBack(conversationData)) == Begun(effects)
  {
    SentAppend(effects, WriteBack(conversationData));
    BegunAppend(effects, WriteBack(conversationData));
  }

  /** The ids of a DialogSet's dialogs, in the order they were added. */
  function Ids(dialogs: seq<Dialog>): (ids: seq<string>)
    ensures |ids| == |dialogs|
    ensures forall i :: 0 <= i < |dialogs| ==> ids[i] == dialogs[i].id
  {
    if dialogs == [] then [] else [dialogs[0].id] + Ids(dialogs[1..])
  }
}

=== FILE: state.dfy ===
/**
 * The records the bot keeps in the Bot Framework's user and conversation state,
 * the effects a turn has on that state and on the conversation, and the object
 * through which the dialogs reach the state (VSLiveBotAccessors).
 */
module BotState {
  import opened Wrappers

  /** The user's identity as the bot collects it; a field is `None` until a dialog step sets it. */
  datatype UserProfile = UserProfile(name: Option<string>, adoId: Option<string>)

  /** What `new UserProfile()` yields: both fields null. */
  const NewUserProfile := UserProfile(None, None)

  /** Conversation-scoped record: read and written back by every message turn. */
  datatype ConversationData = ConversationData(timestamp: Option<string>, channelId: Option<string>)

  /** The work item the create-new dialog assembles, one field per step. */
  datatype CreateNewData = CreateNewData(itemType: Option<string>, description: Option<string>, assignToSelf: bool)

  /** What `new CreateNewData()` yields. */
  const NewCreateNewData := CreateNewData(None, None, false)

  /**
   * The exceptions the modelled code throws: the constructors' argument checks,
   * a member access through a null reference, and a JSON token asked for a child
   * it cannot have.
   */
  datatype Exception =
    | ArgumentNull(paramName: string)
    | Argument(message: string)
    | NullReference
    | InvalidOperation

  /** C#'s `string.IsNullOrEmpty`. */
  predicate IsNullOrEmpty(s: Option<string>) {
    s.None? || s.value == ""
  }

  /** Both identity fields are filled in: the test at the head of both bots' message turn. */
  predicate HasIdentity(p: UserProfile) {
    !IsNullOrEmpty(p.name) && !IsNullOrEmpty(p.adoId)
  }

  /** How a nullable string appears inside an interpolated C# string: null prints as nothing. */
  function Show(s: Option<string>): string {
    if s.Some? then s.value else ""
  }

  /** How a C# bool appears inside an interpolated string. */
  function ShowBool(b: bool): string {
    if b then "True" else "False"
  }

  /**
   * One observable effect of a turn, in the order the code performs it:
   * a message sent to the user, a dialog-stack operation, a LUIS call, a state
   * property written, or a state store saved.
   */
  datatype Effect =
    | Send(text: string)
    | ContinueDialog
    | BeginDialog(dialogId: string, options: Option<string>)
    | Recognize
    | SetConversationData(data: ConversationData)
    | SaveConversationState
    | SetUserProfile(profile: UserProfile)
    | SetCreateNewData(createNew: CreateNewData)
    | SaveUserState

  /** The texts of the messages in an effect log, in the order they were sent. */
  function Sent(effects: seq<Effect>): (texts: seq<string>)
    ensures |texts| <= |effects|
  {
    if effects == [] then []
    else (if effects[0].Send? then [effects[0].text] else []) + Sent(effects[1..])
  }

  /** The dialogs begun in an effect log, in order. */
  function Begun(effects: seq<Effect>): (begun: seq<Effect>)
    ensures |begun| <= |effects|
    ensures forall i :: 0 <= i < |begun| ==> begun[i].BeginDialog?
  {
    if effects == [] then []
    else (if effects[0].BeginDialog? then [effects[0]] else []) + Begun(effects[1..])
  }

  /** Sending is compositional: the messages of a concatenated log are the concatenated messages. */
  lemma {:induction false} SentAppend(a: seq<Effect>, b: seq<Effect>)
    ensures Sent(a + b) == Sent(a) + Sent(b)
  {
    if a == [] {
      assert a + b == b;
    } else {
      assert (a + b)[1..] == a[1..] + b;
      SentAppend(a[1..], b);
    }
  }

  /** Likewise for the dialogs begun. */
  lemma {:induction false} BegunAppend(a: seq<Effect>, b: seq<Effect>)
    ensures Begun(a + b) == Begun(a) + Begun(b)
  {
    if a == [] {
      assert a + b == b;
    } else {
      assert (a + b)[1..] == a[1..] + b;
      BegunAppend(a[1..], b);
    }
  }

  /** One effect in front of a log adds at most that effect to its messages and dialogs begun. */
  lemma ConsOne(e: Effect, rest: seq<Effect>)
    ensures Sent([e] + rest) == (if e.Send? then [e.text] else []) + Sent(rest)
    ensures Begun([e] + rest) == (if e.BeginDialog? then [e] else []) + Begun(rest)
  {
    assert ([e] + rest)[1..] == rest;
  }

  /** Appending one effect extends the messages and the dialogs begun by at most that effect. */
  lemma AppendOne(effects: seq<Effect>, e: Effect)
    ensures Sent(effects + [e]) == Sent(effects) + (if e.Send? then [e.text] else [])
    ensures Begun(effects + [e]) == Begun(effects) + (if e.BeginDialog? then [e] else [])
  {
    SentAppend(effects, [e]);
    BegunAppend(effects, [e]);
  }

  /**
   * VSLiveBotAccessors together with the state it reaches. `userProfile` is the
   * "UserProfile" property of user state: the source reads it both through the
   * `UserProfile` accessor and through `UserProfileAccessor`, and Startup creates
   * both on that same property name, so the model keeps one field. `createNewData`
   * is the value behind the `CreateNewData` accessor, which exists only when
   * `createNewDataAssigned` holds. `effects` is the ordered log of what the turns
   * and steps did: messages sent, properties set, stores saved.
   */
  class StateAccessors {
    const createNewDataAssigned: bool
    var userProfile: UserProfile
    var createNewData: CreateNewData
    var effects: seq<Effect>

    /** Fresh state: no profile or work item stored yet (the getters' defaults), nothing done. */
    constructor (createNewDataAssigned: bool)
      ensures this.createNewDataAssigned == createNewDataAssigned
      ensures userProfile == NewUserProfile && createNewData == NewCreateNewData
      ensures effects == []
    {
      this.createNewDataAssigned := createNewDataAssigned;
      userProfile := NewUserProfile;
      createNewData := NewCreateNewData;
      effects := [];
    }

    /**
     * The accessors Startup builds (src/VSLiveBot/Startup.cs:64-70): the two profile
     * accessors on "UserProfile", and no CreateNewData accessor at all.
     */
    static method FromStartup() returns (a: StateAccessors)
      ensures fresh(a)
      ensures !a.createNewDataAssigned
      ensures a.userProfile == NewUserProfile && a.createNewData == NewCreateNewData && a.effects == []
    {
      a := new StateAccessors(false);
    }

    /** `UserProfileAccessor.SetAsync`. */
    method SetUserProfile(p: UserProfile)
      modifies this
      ensures userProfile == p
      ensures createNewData == old(createNewData)
      ensures effects == old(effects) + [Effect.SetUserProfile(p)]
    {
      userProfile := p;
      effects := effects + [Effect.SetUserProfile(p)];
    }

    /** `CreateNewData.SetAsync`; only reachable when the accessor exists. */
    method SetCreateNewData(d: CreateNewData)
      requires createNewDataAssigned
      modifies this
      ensures createNewData == d
      ensures userProfile == old(userProfile)
      ensures effects == old(effects) + [Effect.SetCreateNewData(d)]
    {
      createNewData := d;
      effects := effects + [Effect.SetCreateNewData(d)];
    }

    /** `UserState.SaveChangesAsync`: persists what was set; the records stay as they are. */
    method SaveUserState()
      modifies this
      ensures userProfile == old(userProfile) && createNewData == old(createNewData)
      ensures effects == old(effects) + [Effect.SaveUserState]
    {
      effects := effects + [Effect.SaveUserState];
    }

    /** `SendActivityAsync` with a text message. */
    method Send(text: string)
      modifies this
      ensures userProfile == old(userProfile) && createNewData == old(createNewData)
      ensures effects == old(effects) + [Effect.Send(text)]
    {
      effects := effects + [Effect.Send(text)];
    }
  }
}

=== FILE: user_info_dialog.dfy ===
/**
 * UserInfoDialog: the four-step waterfall that asks for the user's name and
 * Azure DevOps id and stores them in the user profile.
 */
module UserInfo {
  import opened Wrappers
  import opened BotState
  import opened Dialogs

  const AskName := "Before we can start we need to know a bit about you, what is your name?"
  const AskAdoId := "What is your Azure Dev Ops Id?"

  /** The acknowledgement NameConfirm sends for the reply `name`. */
  function ThanksName(name: string): string {
    "Thanks " + name + "."
  }

  class UserInfoDialog {
    const accessors: StateAccessors

    constructor (accessors: StateAccessors)
      ensures this.accessors == accessors
    {
      this.accessors := accessors;
    }

    /** The C# constructor: a null accessors object is refused with ArgumentNullException. */
    static method Create(accessors: StateAccessors?) returns (r: Result<UserInfoDialog, Exception>)
      ensures accessors == null ==> r == Failure(ArgumentNull("accessors"))
      ensures accessors != null ==> r.Success? && fresh(r.value) && r.value.accessors == accessors
    {
      if accessors == null {
        r := Failure(ArgumentNull("accessors"));
      } else {
        var d := new UserInfoDialog(accessors);
        r := Success(d);
      }
    }

    /** The waterfall's steps, in the order the framework runs them. */
    static function Steps(): seq<StepName> {
      [GetName, NameConfirm, GetAdoId, AdoIdConfirm]
    }

    /** Step 1: ask for the name; nothing is read or written. */
    static method GetNameStep() returns (action: StepAction)
      ensures action.Prompt? && action.promptId == NamePromptId && action.choices == []
      ensures action.text == AskName
    {
      action := Prompt(NamePromptId, AskName, []);
    }

    /**
     * Step 2: the prompt's reply becomes the name; the Azure DevOps id and the
     * work item are untouched. The profile is set and saved before the
     * acknowledgement is sent, and the waterfall goes straight on to step 3.
     */
    method NameConfirmStep(result: string) returns (action: StepAction)
      modifies accessors
      ensures accessors.userProfile.name == Some(result)
      ensures accessors.userProfile.adoId == old(accessors.userProfile.adoId)
      ensures accessors.createNewData == old(accessors.createNewData)
      ensures accessors.effects == old(accessors.effects) +
        [SetUserProfile(accessors.userProfile), SaveUserState, Send(ThanksName(result))]
      ensures action == Continue
    {
      var userProfile := accessors.userProfile;
      userProfile := userProfile.(name := Some(result));
      accessors.SetUserProfile(userProfile);
      accessors.SaveUserState();
      accessors.Send(ThanksName(result));
      action := Continue;
    }

    /** Step 3: ask for the Azure DevOps id; the profile is read but nothing is written. */
    method GetAdoIdStep() returns (action: StepAction)
      ensures action.Prompt? && action.promptId == AdoIdPromptId && action.choices == []
      ensures action.text == AskAdoId
    {
      var _ := accessors.userProfile;
      action := Prompt(AdoIdPromptId, AskAdoId, []);
    }

    /**
     * Step 4: the reply becomes the Azure DevOps id, the name is untouched. After
     * setting and saving, the confirmation and then "What do you want to do?" are
     * sent, and the dialog ends with the updated profile as its result.
     */
    method AdoIdConfirmStep(result: string) returns (action: StepAction)
      modifies accessors
      ensures accessors.userProfile.adoId == Some(result)
      ensures accessors.userProfile.name == old(accessors.userProfile.name)
      ensures accessors.createNewData == old(accessors.createNewData)
      ensures accessors.effects == old(accessors.effects) +
        [ SetUserProfile(accessors.userProfile), SaveUserState,
          Send("Thanks " + Show(accessors.userProfile.name) + ", I have your Azure Dev Ops Id as " + result + "."),
          Send(WhatNext) ]
      ensures action == End(accessors.userProfile)
    {
      var userProfile := accessors.userProfile;
      userProfile := userProfile.(adoId := Some(result));
      accessors.SetUserProfile(userProfile);
      accessors.SaveUserState();
      accessors.Send("Thanks " + Show(userProfile.name) + ", I have your Azure Dev Ops Id as " + Show(userProfile.adoId) + ".");
      accessors.Send(WhatNext);
      action := End(userProfile);
    }
  }
}

=== FILE: vslive_bot.dfy ===
/**
 * VSLiveBot: the bot variant that, once the user's identity is known, asks LUIS
 * what the user wants and starts the create-new dialog for a "Create_New"
 * intent. It also holds GetAdoItemName, the item-type lookup that nothing calls.
 */
module LuisBot {
  import opened Wrappers
  import opened BotState
  import opened Dialogs
  import opened UserInfo
  import opened CreateNew

  /** The key the LUIS recognizer must be configured under. */
  const LuisKey := "ModernAppsLiveLanguage"

  /** The bot's services: the keys of its configured LUIS recognizers. */
  datatype BotServices = BotServices(luisServices: set<string>)

  /**
   * What walking the entity path `Entities.Last.First.First.First` of a LUIS
   * result gives: the text of the token it reaches; a null somewhere along the
   * path (no entities at all, or an empty child list), whose next member access
   * throws NullReferenceException; or a plain JSON value along the path, which
   * throws InvalidOperationException when asked for its first child.
   */
  datatype EntityPath = Entity(text: string) | NullOnPath | ValueOnPath

  /** The exception an entity path that cannot be walked raises. */
  function PathFault(path: EntityPath): Exception
    requires !path.Entity?
  {
    if path.NullOnPath? then NullReference else InvalidOperation
  }

  /**
   * What LUIS answered: the top-scoring intent (`None` only when the recognizer
   * result itself is null; without any intent the name is "") and the outcome of
   * walking the entity path, which is evaluated only for a recognized intent.
   */
  datatype Recognition = Recognition(topIntent: Option<string>, entity: EntityPath)

  /** The test at src/VSLiveBot.cs:101: a result came back and its top intent is not "None". */
  predicate Recognized(r: Recognition) {
    r.topIntent.Some? && r.topIntent.value != "None"
  }

  /** `char.ToUpper` on the ASCII letters; every other character is left as it is. */
  function UpperChar(c: char): char {
    if 'a' <= c <= 'z' then (c as int - 32) as char else c
  }

  /**
   * `string.ToUpper` as the invariant culture does it on ASCII: the length is
   * kept, no lower-case ASCII letter is left, every other character stays in
   * place, and each lower-case letter becomes the capital of the same letter.
   */
  function ToUpper(s: string): (r: string)
    ensures |r| == |s|
    ensures forall i :: 0 <= i < |r| ==> !('a' <= r[i] <= 'z')
    ensures forall i :: 0 <= i < |s| && !('a' <= s[i] <= 'z') ==> r[i] == s[i]
    ensures forall i :: 0 <= i < |s| && 'a' <= s[i] <= 'z' ==>
      'A' <= r[i] <= 'Z' && r[i] as int - 'A' as int == s[i] as int - 'a' as int
  {
    seq(|s|, i requires 0 <= i < |s| => UpperChar(s[i]))
  }

  /** Upper-casing twice is upper-casing once. */
  lemma ToUpperIdempotent(s: string)
    ensures ToUpper(ToUpper(s)) == ToUpper(s)
  {
  }

  /** The six work-item type keys GetAdoItemName recognises, and the names it gives them, pairwise. */
  const ItemTypeKeys: seq<string> := ["FEATURE", "EPIC", "TEST CASE", "TASK", "USER STORY", "BUG"]
  const ItemTypeNames: seq<string> := ["Feature", "Epic", "Test Case", "Task", "User Story", "Bug"]

  /** Each name upper-cases to its key. */
  lemma NamesUpperToKeys()
    ensures forall i :: 0 <= i < |ItemTypeNames| ==> ToUpper(ItemTypeNames[i]) == ItemTypeKeys[i]
  {
    assert ToUpper("Feature") == "FEATURE";
    assert ToUpper("Epic") == "EPIC";
    assert ToUpper("Test Case") == "TEST CASE";
    assert ToUpper("Task") == "TASK";
    assert ToUpper("User Story") == "USER STORY";
    assert ToUpper("Bug") == "BUG";
  }

  /**
   * The Azure DevOps work-item type for an entity name, compared without regard
   * to case; "" for anything that is not one of the six types. The result is ""
   * or one of the six names, it is a name exactly when the input upper-cases to
   * a key, and then it is the input's own word spelled the canonical way.
   */
  function GetAdoItemName(entityName: string): (r: string)
    ensures r == "" || r in ItemTypeNames
    ensures r != "" <==> ToUpper(entityName) in ItemTypeKeys
    ensures r != "" ==> ToUpper(r) == ToUpper(entityName)
  {
    NamesUpperToKeys();
    var key := ToUpper(entityName);
    if key == "FEATURE" then "Feature"
    else if key == "EPIC" then "Epic"
    else if key == "TEST CASE" then "Test Case"
    else if key == "TASK" then "Task"
    else if key == "USER STORY" then "User Story"
    else if key == "BUG" then "Bug"
    else ""
  }

  /** In any mix of case, the i-th key maps to the i-th name. */
  lemma ItemTypeLookup(entityName: string, i: nat)
    requires i < |ItemTypeKeys| && ToUpper(entityName) == ItemTypeKeys[i]
    ensures GetAdoItemName(entityName) == ItemTypeNames[i]
  {
    NamesUpperToKeys();
    var r := GetAdoItemName(entityName);
    var j :| 0 <= j < |ItemTypeNames| && ItemTypeNames[j] == r;
    assert ItemTypeKeys[j] == ItemTypeKeys[i];
  }

  /** The lookup ignores case: an entity name and its upper-cased form map alike. */
  lemma GetAdoItemNameIgnoresCase(entityName: string)
    ensures GetAdoItemName(ToUpper(entityName)) == GetAdoItemName(entityName)
  {
    ToUpperIdempotent(entityName);
  }

  /** Applying the lookup to its own output changes nothing. */
  lemma GetAdoItemNameIdempotent(entityName: string)
    ensures GetAdoItemName(GetAdoItemName(entityName)) == GetAdoItemName(entityName)
  {
    var r := GetAdoItemName(entityName);
    if r == "" {
      assert ToUpper(r) == "";
    } else {
      NamesUpperToKeys();
      var j :| 0 <= j < |ItemTypeNames| && ItemTypeNames[j] == r;
      ItemTypeLookup(r, j);
    }
  }

  /** The dialogs the constructor adds, in order. */
  const Registrations: seq<Dialog> := [
    WaterfallDialog(UserInfoId, UserInfoDialog.Steps()), TextPrompt(NamePromptId), TextPrompt(AdoIdPromptId),
    WaterfallDialog(CreateNewId, CreateNewDialog.Steps()), TextPrompt(DescriptionPromptId), ConfirmPrompt(AssignSelfPromptId)]

  /** The ids the constructor registers, in order. */
  lemma RegisteredIds()
    ensures Ids(Registrations) == [UserInfoId, NamePromptId, AdoIdPromptId, CreateNewId, DescriptionPromptId, AssignSelfPromptId]
  {
    var ids := Ids(Registrations);
    assert |ids| == 6;
    assert forall i :: 0 <= i < 6 ==> ids[i] == Registrations[i].id;
  }

  /**
   * What the message branch of OnTurnAsync does before writing back the
   * conversation data: the dialog work and LUIS dispatch (src/VSLiveBot.cs:80-117).
   * `status` is what ContinueDialogAsync reports and `recognition` what LUIS
   * answers, each used only if the branch gets that far. `createNewDataAssigned`
   * says whether the accessors carry a CreateNewData accessor: BeginDialogAsync
   * runs the create-new waterfall's first step at once, and without that accessor
   * the step throws NullReferenceException out of the turn.
   */
  function Dispatch(profile: UserProfile, status: DialogTurnStatus, recognition: Recognition,
                    createNewDataAssigned: bool): Turn
  {
    if !HasIdentity(profile) then
      Turn([ContinueDialog] + (if status == Empty then [BeginDialog(UserInfoId, None)] else []), None)
    else if status != Empty then Turn([ContinueDialog], None)
    else if !Recognized(recognition) then
      Turn([ContinueDialog, Recognize, Send(profile.name.value + ", I am unsure what you want to do.")], None)
    else if !recognition.entity.Entity? then Turn([ContinueDialog, Recognize], Some(PathFault(recognition.entity)))
    else if recognition.topIntent.value == "Create_New" then
      Turn([ContinueDialog, Recognize, BeginDialog(CreateNewId, Some(recognition.entity.text))],
           if createNewDataAssigned then None else Some(NullReference))
    else Turn([ContinueDialog, Recognize], None)
  }

  /**
   * What OnTurnAsync does with one activity: nothing unless it is a message;
   * for a message, the dispatch and then, unless that threw, the write-back of
   * the conversation data the accessors returned.
   */
  function RoutedTurn(activity: ActivityType, profile: UserProfile, conversationData: ConversationData,
                      status: DialogTurnStatus, recognition: Recognition, createNewDataAssigned: bool): Turn
  {
    if !activity.Message? then Turn([], None)
    else
      var d := Dispatch(profile, status, recognition, createNewDataAssigned);
      if d.fault.Some? then d else Turn(d.effects + WriteBack(conversationData), None)
  }

  /** The shape of the dispatch: it starts by continuing the dialog and never writes back (a helper for the lemmas below). */
  lemma DispatchShape(profile: UserProfile, status: DialogTurnStatus, recognition: Recognition, createNewDataAssigned: bool)
    ensures var d := Dispatch(profile, status, recognition, createNewDataAssigned);
      && |d.effects| > 0 && d.effects[0] == ContinueDialog
      && (Recognize in d.effects <==> HasIdentity(profile) && status == Empty)
      && (forall i :: 0 <= i < |d.effects| ==> !d.effects[i].SetConversationData? && !d.effects[i].SaveConversationState?)
  {
  }

  /** The message the dispatch sends, case by case. */
  lemma DispatchSent(profile: UserProfile, status: DialogTurnStatus, recognition: Recognition, createNewDataAssigned: bool)
    ensures Sent(Dispatch(profile, status, recognition, createNewDataAssigned).effects) ==
           (if HasIdentity(profile) && status == Empty && !Recognized(recognition)
            then [profile.name.value + ", I am unsure what you want to do."] else [])
  {
    var d := Dispatch(profile, status, recognition, createNewDataAssigned);
    if |d.effects| == 2 {
      ConsOne(d.effects[0], [d.effects[1]]);
      assert d.effects == [d.effects[0]] + [d.effects[1]];
    } else if |d.effects| == 3 {
      var tail := [d.effects[2]];
      ConsOne(d.effects[1], tail);
      ConsOne(d.effects[0], [d.effects[1]] + tail);
      assert d.effects == [d.effects[0]] + ([d.effects[1]] + tail);
    }
  }

  /** The dialog the dispatch begins, case by case. */
  lemma DispatchBegun(profile: UserProfile, status: DialogTurnStatus, recognition: Recognition, createNewDataAssigned: bool)
    ensures Begun(Dispatch(profile, status, recognition, createNewDataAssigned).effects) ==
           (if !HasIdentity(profile) && status == Empty then [BeginDialog(UserInfoId, None)]
            else if HasIdentity(profile) && status == Empty && Recognized(recognition) && recognition.entity.Entity?
                    && recognition.topIntent.value == "Create_New"
            then [BeginDialog(CreateNewId, Some(recognition.entity.text))]
            else [])
  {
    var d := Dispatch(profile, status, recognition, createNewDataAssigned);
    if |d.effects| == 2 {
      ConsOne(d.effects[0], [d.effects[1]]);
      assert d.effects == [d.effects[0]] + [d.effects[1]];
    } else if |d.effects| == 3 {
      var tail := [d.effects[2]];
      ConsOne(d.effects[1], tail);
      ConsOne(d.effects[0], [d.effects[1]] + tail);
      assert d.effects == [d.effects[0]] + ([d.effects[1]] + tail);
    }
  }

  /** A conversation update, or any other activity that is not a message, does nothing at all. */
  lemma NonMessageIsNoOp(activity: ActivityType, profile: UserProfile, conversationData: ConversationData,
                         status: DialogTurnStatus, recognition: Recognition, createNewDataAssigned: bool)
    requires !activity.Message?
    ensures RoutedTurn(activity, profile, conversationData, status, recognition, createNewDataAssigned) == Turn([], None)
  {
  }

  /**
   * Without a full identity the active dialog is continued and, only when there
   * was none, "UserInfo" is begun with null options; LUIS is not asked and the
   * bot sends nothing of its own.
   */
  lemma IdentityComesFirst(profile: UserProfile, conversationData: ConversationData,
                           status: DialogTurnStatus, recognition: Recognition, createNewDataAssigned: bool)
    requires !HasIdentity(profile)
    ensures var t := RoutedTurn(Message, profile, conversationData, status, recognition, createNewDataAssigned);
      && t.fault.None? && t.effects[0] == ContinueDialog && Recognize !in t.effects && Sent(t.effects) == []
      && Begun(t.effects) == (if status == Empty then [BeginDialog(UserInfoId, None)] else [])
  {
    DispatchShape(profile, status, recognition, createNewDataAssigned);
    DispatchSent(profile, status, recognition, createNewDataAssigned);
    DispatchBegun(profile, status, recognition, createNewDataAssigned);
    WriteBackAddsNothing(Dispatch(profile, status, recognition, createNewDataAssigned).effects, conversationData);
  }

  /** With the identity known and a dialog still active, continuing it is all the turn does. */
  lemma ActiveDialogOnly(profile: UserProfile, conversationData: ConversationData,
                         status: DialogTurnStatus, recognition: Recognition, createNewDataAssigned: bool)
    requires HasIdentity(profile) && status != Empty
    ensures var t := RoutedTurn(Message, profile, conversationData, status, recognition, createNewDataAssigned);
      && t.fault.None? && ContinueDialog in t.effects && Recognize !in t.effects
      && Sent(t.effects) == [] && Begun(t.effects) == []
  {
    DispatchShape(profile, status, recognition, createNewDataAssigned);
    DispatchSent(profile, status, recognition, createNewDataAssigned);
    DispatchBegun(profile, status, recognition, createNewDataAssigned);
    WriteBackAddsNothing(Dispatch(profile, status, recognition, createNewDataAssigned).effects, conversationData);
  }

  /** LUIS is consulted exactly when a message arrives, the identity is known and no dialog was active. */
  lemma RecognizerOnlyWhenIdle(activity: ActivityType, profile: UserProfile, conversationData: ConversationData,
                               status: DialogTurnStatus, recognition: Recognition, createNewDataAssigned: bool)
    ensures Recognize in RoutedTurn(activity, profile, conversationData, status, recognition, createNewDataAssigned).effects
            <==> activity.Message? && HasIdentity(profile) && status == Empty
  {
    DispatchShape(profile, status, recognition, createNewDataAssigned);
  }

  /**
   * No recognizer result, or the top intent "None": exactly one message,
   * addressed to the user by name, and no dialog.
   */
  lemma UnsureWithoutIntent(profile: UserProfile, conversationData: ConversationData, recognition: Recognition,
                            createNewDataAssigned: bool)
    requires HasIdentity(profile) && !Recognized(recognition)
    ensures var t := RoutedTurn(Message, profile, conversationData, Empty, recognition, createNewDataAssigned);
      && t.fault.None? && Begun(t.effects) == []
      && Sent(t.effects) == [profile.name.value + ", I am unsure what you want to do."]
  {
    DispatchShape(profile, Empty, recognition, createNewDataAssigned);
    DispatchSent(profile, Empty, recognition, createNewDataAssigned);
    DispatchBegun(profile, Empty, recognition, createNewDataAssigned);
    WriteBackAddsNothing(Dispatch(profile, Empty, recognition, createNewDataAssigned).effects, conversationData);
  }

  /**
   * "Create_New" begins the create-new dialog with the entity text exactly as LUIS
   * returned it as its options, and the bot sends nothing of its own. With the
   * CreateNewData accessor the turn then writes back and saves; without it the
   * waterfall's first step throws NullReferenceException out of BeginDialogAsync,
   * and neither the write-back nor the save happens.
   */
  lemma CreateNewGetsRawEntity(profile: UserProfile, conversationData: ConversationData, entity: string,
                               createNewDataAssigned: bool)
    requires HasIdentity(profile)
    ensures var t := RoutedTurn(Message, profile, conversationData, Empty,
                                Recognition(Some("Create_New"), Entity(entity)), createNewDataAssigned);
      && Sent(t.effects) == []
      && Begun(t.effects) == [BeginDialog(CreateNewId, Some(entity))]
      && t.fault == (if createNewDataAssigned then None else Some(NullReference))
      && (SaveConversationState in t.effects <==> createNewDataAssigned)
  {
    var r := Recognition(Some("Create_New"), Entity(entity));
    DispatchShape(profile, Empty, r, createNewDataAssigned);
    DispatchSent(profile, Empty, r, createNewDataAssigned);
    DispatchBegun(profile, Empty, r, createNewDataAssigned);
    var d := Dispatch(profile, Empty, r, createNewDataAssigned);
    if createNewDataAssigned {
      WriteBackAddsNothing(d.effects, conversationData);
      assert (d.effects + WriteBack(conversationData))[|d.effects| + 1] == SaveConversationState;
    }
  }

  /**
   * The lookup is never applied on the way to the dialog: for the entity "bug"
   * the create-new dialog receives "bug", though GetAdoItemName would give "Bug".
   */
  lemma EntityNotNormalised(conversationData: ConversationData, createNewDataAssigned: bool)
    ensures var profile := UserProfile(Some("Jane"), Some("jdoe"));
      && Begun(RoutedTurn(Message, profile, conversationData, Empty, Recognition(Some("Create_New"), Entity("bug")),
                          createNewDataAssigned).effects) == [BeginDialog(CreateNewId, Some("bug"))]
      && GetAdoItemName("bug") == "Bug"
  {
    var profile := UserProfile(Some("Jane"), Some("jdoe"));
    CreateNewGetsRawEntity(profile, conversationData, "bug", createNewDataAssigned);
    assert ToUpper("bug") == ItemTypeKeys[5];
    ItemTypeLookup("bug", 5);
  }

  /** Any other recognized intent begins no dialog and sends no message. */
  lemma OtherIntentIgnored(profile: UserProfile, conversationData: ConversationData, recognition: Recognition,
                           createNewDataAssigned: bool)
    requires HasIdentity(profile) && Recognized(recognition) && recognition.entity.Entity?
    requires recognition.topIntent != Some("Create_New")
    ensures var t := RoutedTurn(Message, profile, conversationData, Empty, recognition, createNewDataAssigned);
      t.fault.None? && Sent(t.effects) == [] && Begun(t.effects) == []
  {
    DispatchShape(profile, Empty, recognition, createNewDataAssigned);
    DispatchSent(profile, Empty, recognition, createNewDataAssigned);
    DispatchBegun(profile, Empty, recognition, createNewDataAssigned);
    WriteBackAddsNothing(Dispatch(profile, Empty, recognition, createNewDataAssigned).effects, conversationData);
  }

  /**
   * A recognized intent, whichever it is, whose entity path cannot be walked
   * throws the path's exception before any dialog is begun or any state is
   * written or saved.
   */
  lemma MissingEntityThrows(profile: UserProfile, conversationData: ConversationData, recognition: Recognition,
                            createNewDataAssigned: bool)
    requires HasIdentity(profile) && Recognized(recognition) && !recognition.entity.Entity?
    ensures var t := RoutedTurn(Message, profile, conversationData, Empty, recognition, createNewDataAssigned);
      && t.fault == Some(if recognition.entity.NullOnPath? then NullReference else InvalidOperation)
      && Begun(t.effects) == []
      && SetConversationData(conversationData) !in t.effects && SaveConversationState !in t.effects
  {
    DispatchShape(profile, Empty, recognition, createNewDataAssigned);
    DispatchBegun(profile, Empty, recognition, createNewDataAssigned);
  }

  /**
   * A message turn ends by writing back the conversation data it read, unchanged,
   * and then saving the conversation state exactly when it completes without an
   * exception; it sends at most one message and begins at most one dialog, and
   * that dialog is registered.
   */
  lemma MessageTurnShape(profile: UserProfile, conversationData: ConversationData,
                         status: DialogTurnStatus, recognition: Recognition, createNewDataAssigned: bool)
    ensures var t := RoutedTurn(Message, profile, conversationData, status, recognition, createNewDataAssigned);
      && (t.fault.None? ==>
            && |t.effects| >= 2
            && t.effects[|t.effects| - 2] == SetConversationData(conversationData)
            && t.effects[|t.effects| - 1] == SaveConversationState)
      && (t.fault.Some? ==> SaveConversationState !in t.effects)
      && |Sent(t.effects)| <= 1
      && |Begun(t.effects)| <= 1
      && forall i :: 0 <= i < |Begun(t.effects)| ==> Begun(t.effects)[i].dialogId in Ids(Registrations)
  {
    var d := Dispatch(profile, status, recognition, createNewDataAssigned);
    DispatchShape(profile, status, recognition, createNewDataAssigned);
    DispatchSent(profile, status, recognition, createNewDataAssigned);
    DispatchBegun(profile, status, recognition, createNewDataAssigned);
    RegisteredIds();
    if d.fault.None? {
      WriteBackAddsNothing(d.effects, conversationData);
    }
  }

  class VSLiveBot {
    const accessors: StateAccessors
    const services: BotServices
    const userInfo: UserInfoDialog
    const createNew: CreateNewDialog
    const dialogs: seq<Dialog> := Registrations

    constructor (accessors: StateAccessors, services: BotServices)
      ensures this.accessors == accessors && this.services == services
      ensures fresh(userInfo) && userInfo.accessors == accessors
      ensures fresh(createNew) && createNew.accessors == accessors
    {
      this.accessors := accessors;
      this.services := services;
      userInfo := new UserInfoDialog(accessors);
      createNew := new CreateNewDialog(accessors);
    }

    /**
     * The C# constructor: null accessors or null services are refused with
     * ArgumentNullException, in that order, and services without the LUIS key
     * with ArgumentException. Otherwise the bot registers both waterfalls and
     * their four prompts, and its dialogs share the bot's accessors.
     */
    static method Create(accessors: StateAccessors?, services: Option<BotServices>) returns (r: Result<VSLiveBot, Exception>)
      ensures accessors == null ==> r == Failure(ArgumentNull("accessors"))
      ensures accessors != null && services.None? ==> r == Failure(ArgumentNull("services"))
      ensures accessors != null && services.Some? && LuisKey !in services.value.luisServices ==>
        r == Failure(Argument("Invalid configuration...."))
      ensures r.Success? <==> accessors != null && services.Some? && LuisKey in services.value.luisServices
      ensures r.Success? ==>
        && fresh(r.value) && r.value.accessors == accessors && r.value.services == services.value
        && r.value.userInfo.accessors == accessors && r.value.createNew.accessors == accessors
        && Ids(r.value.dialogs) == [UserInfoId, NamePromptId, AdoIdPromptId, CreateNewId, DescriptionPromptId, AssignSelfPromptId]
    {
      if accessors == null {
        return Failure(ArgumentNull("accessors"));
      }
      if services.None? {
        return Failure(ArgumentNull("services"));
      }
      if LuisKey !in services.value.luisServices {
        return Failure(Argument("Invalid configuration...."));
      }
      RegisteredIds();
      var bot := new VSLiveBot(accessors, services.value);
      r := Success(bot);
    }

    /**
     * One conversation turn (OnTurnAsync); its inputs are those of RoutedTurn.
     * The user profile is the one stored behind the bot's accessors, and whether
     * the create-new waterfall can run is read off them too.
     */
    method OnTurn(activity: ActivityType, conversationData: ConversationData,
                  status: DialogTurnStatus, recognition: Recognition) returns (t: Turn)
      ensures t == RoutedTurn(activity, accessors.userProfile, conversationData, status, recognition,
                              accessors.createNewDataAssigned)
    {
      if activity.ConversationUpdate? {
        return Turn([], None);
      }
      if !activity.Message? {
        return Turn([], None);
      }
      var userProfile := accessors.userProfile;
      var data := conversationData;
      var effects: seq<Effect> := [ContinueDialog];
      if IsNullOrEmpty(userProfile.name) || IsNullOrEmpty(userProfile.adoId) {
        if status == Empty {
          effects := effects + [BeginDialog(UserInfoId, None)];
        }
      } else if status == Empty {
        effects := effects + [Recognize];
        var topIntent := recognition.topIntent;
        if topIntent.Some? && topIntent.value != "None" {
          match recognition.entity {
            case NullOnPath => return Turn(effects, Some(NullReference));
            case ValueOnPath => return Turn(effects, Some(InvalidOperation));
            case Entity(entity) =>
              if topIntent.value == "Create_New" {
                effects := effects + [BeginDialog(CreateNewId, Some(entity))];
                if !accessors.createNewDataAssigned {
                  // the waterfall's first step reaches for the missing CreateNewData accessor
                  return Turn(effects, Some(NullReference));
                }
              }
          }
        } else {
          var msg := Show(userProfile.name) + ", I am unsure what you want to do.";
          effects := effects + [Send(msg)];
        }
      }
      effects := effects + [SetConversationData(data)];
      effects := effects + [SaveConversationState];
      t := Turn(effects, None);
    }
  }
}

=== FILE: vslive_bot_bot.dfy ===
/**
 * VSLiveBotBot: the bot variant the web host registers. It only collects the
 * user's name and Azure DevOps id through the "UserInfo" waterfall and, once
 * both are known, answers every message with the same acknowledgement.
 */
module ProfileBot {
  import opened Wrappers
  import opened BotState
  import opened Dialogs
  import opened UserInfo

  /** The dialogs the constructor adds, in order: the profile waterfall and its two prompts. */
  const Registrations: seq<Dialog> := [
    WaterfallDialog(UserInfoId, UserInfoDialog.Steps()), TextPrompt(NamePromptId), TextPrompt(AdoIdPromptId)]

  /** The ids the constructor registers, in order. */
  lemma RegisteredIds()
    ensures Ids(Registrations) == [UserInfoId, NamePromptId, AdoIdPromptId]
  {
    var ids := Ids(Registrations);
    assert |ids| == 3;
    assert forall i :: 0 <= i < 3 ==> ids[i] == Registrations[i].id;
  }

  /** The acknowledgement sent once the profile is complete. */
  function GotWhatWeNeed(name: Option<string>): string {
    Show(name) + ", We got what we need"
  }

  /**
   * What the message branch of OnTurnAsync does before writing back the
   * conversation data (src/VSLiveBot/VSLiveBotBot.cs:74-88): continue the active
   * dialog and begin "UserInfo" when none was active, or, with the profile
   * complete, acknowledge it.
   */
  function Dispatch(profile: UserProfile, status: DialogTurnStatus): seq<Effect> {
    if !HasIdentity(profile) then
      [ContinueDialog] + (if status == Empty then [BeginDialog(UserInfoId, None)] else [])
    else [Send(GotWhatWeNeed(profile.name))]
  }

  /**
   * What OnTurnAsync does with one activity: nothing unless it is a message;
   * for a message, the dispatch and then the write-back. Nothing on this path
   * throws: the state reads fall back to fresh records.
   */
  function RoutedTurn(activity: ActivityType, profile: UserProfile, conversationData: ConversationData,
                      status: DialogTurnStatus): Turn
  {
    if !activity.Message? then Turn([], None)
    else Turn(Dispatch(profile, status) + WriteBack(conversationData), None)
  }

  /** The messages and dialogs of the dispatch, case by case (a helper for the lemmas below). */
  lemma DispatchLog(profile: UserProfile, status: DialogTurnStatus)
    ensures var d := Dispatch(profile, status);
      && (ContinueDialog in d <==> !HasIdentity(profile))
      && Recognize !in d
      && (forall i :: 0 <= i < |d| ==> !d[i].SetConversationData? && !d[i].SaveConversationState?)
    ensures Sent(Dispatch(profile, status)) ==
            (if HasIdentity(profile) then [GotWhatWeNeed(profile.name)] else [])
    ensures Begun(Dispatch(profile, status)) ==
            (if !HasIdentity(profile) && status == Empty then [BeginDialog(UserInfoId, None)] else [])
  {
    var d := Dispatch(profile, status);
    if |d| == 2 {
      ConsOne(d[0], [d[1]]);
      assert d == [d[0]] + [d[1]];
    } else {
      ConsOne(d[0], []);
      assert d == [d[0]] + [];
    }
  }

  /** A conversation update, or any other activity that is not a message, does nothing at all. */
  lemma NonMessageIsNoOp(activity: ActivityType, profile: UserProfile, conversationData: ConversationData,
                         status: DialogTurnStatus)
    requires !activity.Message?
    ensures RoutedTurn(activity, profile, conversationData, status) == Turn([], None)
  {
  }

  /**
   * Without a full identity the active dialog is continued and, only when there
   * was none, "UserInfo" is begun with null options; the bot sends nothing of its own.
   */
  lemma IdentityComesFirst(profile: UserProfile, conversationData: ConversationData, status: DialogTurnStatus)
    requires !HasIdentity(profile)
    ensures var t := RoutedTurn(Message, profile, conversationData, status);
      && t.effects[0] == ContinueDialog && Sent(t.effects) == []
      && Begun(t.effects) == (if status == Empty then [BeginDialog(UserInfoId, None)] else [])
  {
    DispatchLog(profile, status);
    WriteBackAddsNothing(Dispatch(profile, status), conversationData);
  }

  /**
   * With the identity known the dialogs are not touched: the turn sends exactly
   * the acknowledgement, addressed by name, whatever the dialog status.
   */
  lemma CompleteProfileAcknowledged(profile: UserProfile, conversationData: ConversationData, status: DialogTurnStatus)
    requires HasIdentity(profile)
    ensures var t := RoutedTurn(Message, profile, conversationData, status);
      && ContinueDialog !in t.effects && Begun(t.effects) == []
      && Sent(t.effects) == [profile.name.value + ", We got what we need"]
  {
    DispatchLog(profile, status);
    WriteBackAddsNothing(Dispatch(profile, status), conversationData);
  }

  /**
   * Every message turn completes without an exception, never consults a
   * recognizer, ends by writing back the conversation data it read and saving the
   * conversation state, sends at most one message and begins at most one dialog,
   * a registered one.
   */
  lemma MessageTurnShape(profile: UserProfile, conversationData: ConversationData, status: DialogTurnStatus)
    ensures var t := RoutedTurn(Message, profile, conversationData, status);
      && t.fault.None? && Recognize !in t.effects
      && |t.effects| >= 2
      && t.effects[|t.effects| - 2] == SetConversationData(conversationData)
      && t.effects[|t.effects| - 1] == SaveConversationState
      && |Sent(t.effects)| <= 1
      && |Begun(t.effects)| <= 1
      && forall i :: 0 <= i < |Begun(t.effects)| ==> Begun(t.effects)[i].dialogId in Ids(Registrations)
  {
    DispatchLog(profile, status);
    RegisteredIds();
    WriteBackAddsNothing(Dispatch(profile, status), conversationData);
  }

  class VSLiveBotBot {
    const accessors: StateAccessors
    const userInfo: UserInfoDialog
    const dialogs: seq<Dialog> := Registrations

    constructor (accessors: StateAccessors)
      ensures this.accessors == accessors
      ensures fresh(userInfo) && userInfo.accessors == accessors
    {
      this.accessors := accessors;
      userInfo := new UserInfoDialog(accessors);
    }

    /**
     * The C# constructor: null accessors are refused with ArgumentNullException;
     * otherwise the bot registers the profile waterfall and its two prompts, and
     * the waterfall shares the bot's accessors.
     */
    static method Create(accessors: StateAccessors?) returns (r: Result<VSLiveBotBot, Exception>)
      ensures accessors == null <==> r == Failure(ArgumentNull("accessors"))
      ensures r.Success? <==> accessors != null
      ensures r.Success? ==>
        && fresh(r.value) && r.value.accessors == accessors && r.value.userInfo.accessors == accessors
        && Ids(r.value.dialogs) == [UserInfoId, NamePromptId, AdoIdPromptId]
    {
      if accessors == null {
        return Failure(ArgumentNull("accessors"));
      }
      RegisteredIds();
      var bot := new VSLiveBotBot(accessors);
      r := Success(bot);
    }

    /**
     * The bot the web host registers (src/VSLiveBot/Startup.cs:58-73), built on the
     * accessors Startup creates: it has the profile waterfall and its prompts but
     * no create-new dialog, so the missing CreateNewData accessor is never reached.
     */
    static method FromStartup() returns (bot: VSLiveBotBot)
      ensures fresh(bot) && fresh(bot.accessors)
      ensures !bot.accessors.createNewDataAssigned && bot.accessors.effects == []
      ensures Ids(bot.dialogs) == [UserInfoId, NamePromptId, AdoIdPromptId] && CreateNewId !in Ids(bot.dialogs)
    {
      var accessors := StateAccessors.FromStartup();
      var created := Create(accessors);
      bot := created.value;
    }

    /**
     * One conversation turn (OnTurnAsync); its inputs are those of RoutedTurn,
     * the user profile being the one stored behind the bot's accessors.
     */
    method OnTurn(activity: ActivityType, conversationData: ConversationData,
                  status: DialogTurnStatus) returns (t: Turn)
      ensures t == RoutedTurn(activity, accessors.userProfile, conversationData, status)
    {
      if activity.ConversationUpdate? {
        return Turn([], None);
      }
      if !activity.Message? {
        return Turn([], None);
      }
      var userProfile := accessors.userProfile;
      var data := conversationData;
      var effects: seq<Effect> := [];
      if IsNullOrEmpty(userProfile.name) || IsNullOrEmpty(userProfile.adoId) {
        effects := effects + [ContinueDialog];
        if status == Empty {
          effects := effects + [BeginDialog(UserInfoId, None)];
        }
      } else {
        effects := effects + [Send(Show(userProfile.name) + ", We got what we need")];
      }
      effects := effects + [SetConversationData(data)];
      effects := effects + [SaveConversationState];
      t := Turn(effects, None);
    }
  }
}

=== FILE: wrappers.dfy ===
/** Option and Result, the stand-ins for C#'s null and for thrown exceptions. */
module Wrappers {

  /** `None` is C#'s `null`. */
  datatype Option<+T> = None | Some(value: T)

  /** `Failure` is an exception thrown out of the modelled member. */
  datatype Result<+R, +E> = Success(value: R) | Failure(error: E)
}
